=== FILE: README.md ===
# LoRa Chat node: a Dafny model of its session core

`lora_chat.py` is a small peer-to-peer messenger on top of the Reticulum mesh
stack. A user starts the node, shows its address with `:me`, types
`:connect <peer_hex>` with the other node's address, and then types
messages. This project models the part of the program that is sequential
logic rather than library glue, and proves properties of that model:

- **Console dispatch** (`reader_thread`). Each line is stripped. A line that is
  empty after stripping does nothing. `:quit`, `:me` and `:announce` are
  matched exactly and case-sensitively. A line that starts with `:connect `
  (with an ASCII space) passes the rest after the whitespace run to
  `connect`. Every other line is sent as a chat message. This includes
  unknown `:` words and a bare `:connect`. Module `Console` holds this; it
  relies on `Text` for Python's `str.strip()` and `str.split(None, 1)` over
  the `str.isspace()` character set.
- **Address text** (`bytes.fromhex`, `RNS.hexrep`). Module `Hex` covers
  CPython 3.7+ `fromhex`. It takes two hex digits per byte, in either case.
  ASCII whitespace is allowed between byte pairs but not inside one. Odd
  digit counts and foreign characters are rejected. The module also covers
  the lower-case, unseparated address display. Both round trips are proved.
- **The peer/link state machine** (`ChatNode.connect`). The node state is
  its own hash (fixed), the peer hash and the current link (module `Node`).
  - Bad hex changes nothing.
  - Good hex always records the peer, even when resolution then fails.
  - A successful connect installs a new link and never closes the old one.
- **Path and identity resolution** (`_wait_for_path_and_identity`). Module
  `Mesh` states it as two polling loops over the mesh stack's answers. The
  wall clock is replaced by a budget of polls.
- **Send routing** (`send_text`). If the link is ACTIVE, the text goes over
  the link. If that send fails, the failure is reported and the code falls
  through to a direct packet. The packet path re-resolves the peer, or it
  refuses with "No peer set". It never changes the state.
- **The session** (module `Session`). Console lines and the mesh stack's
  callbacks are handled in one order. The callbacks only print.

The mesh stack is an oracle. For each console line, a `World` value supplies:
- the answers to `has_path` and `Identity.recall`, and the poll budget;
- the handle of the link object that `RNS.Link` returns;
- the link's status;
- whether the link send succeeds, and whether the packet send succeeds.

Effects come back as a trace:
- `RequestPath`, `OpenLink`, `LinkSend`, `PacketSend` and `Broadcast` for
  calls into the stack;
- `Report(notice)` for each printed line.

The model follows what the code does, including behaviours a reader might
expect to be otherwise:
- An unknown `:` word is sent as a message, not rejected. This includes
  `:rssi`, which the code does not implement.
- A failed link send keeps the link and falls back to a packet. The link is
  not torn down.
- A failed resolution keeps the new peer hash. The node does not revert to
  an idle state.
- A message can be sent without an active link, as a packet.
- A link-closed event, even for a superseded link, only prints. It clears
  nothing.
- An inbound link is never adopted, because no link-established callback is
  registered on the inbound destination.
- The framed serial bridge, its codec and its outbound queue do not exist in
  this source, so they are not modelled.

One consequence of following the code: after a successful `:connect A`
followed by a `:connect B` that fails to resolve, the peer is `B` but the
link still goes to `A`. While that link is ACTIVE, messages go to `A`
(`Node.Connect` keeps `link` on failure, and `Node.SendText` prefers the
link).

## Model

| member | source | states |
|---|---|---|
| Text.Strip | lora_chat.py:220 | the stripped line has no leading or trailing whitespace, and is empty exactly when the raw line is all whitespace |
| Text.StripAbsorbsPadding | lora_chat.py:220 | adding whitespace around a line does not change what stripping it gives |
| Text.StripTrimmed | lora_chat.py:220 | stripping is idempotent: a line without surrounding whitespace is its own strip |
| Text.SplitOnce | lora_chat.py:234 | `split(None, 1)` yields at most two non-empty parts starting with non-space; none exactly for all-whitespace input; the first is the first whitespace-free word of the input; the second, present exactly when something follows the whitespace run after that word, is the rest of the input from there |
| Console.Classify | lora_chat.py:218-237 | empty-after-strip is a no-op; `:quit`/`:me`/`:announce` exactly when the stripped line equals them; `Connect` exactly when it starts with `:connect `, with the argument after the whitespace run, non-empty and trimmed; everything else is `Send` of the stripped line |
| Console.ConnectSplit | lora_chat.py:233-234 | on a stripped `:connect ` line, `split(None, 1)` has two parts, so indexing `[1]` cannot fail, and the second part is the argument |
| Console.ClassifyRender | lora_chat.py:226-237 | reading back the canonical line of any command gives that command |
| Console.ClassifyCanonical | lora_chat.py:224-237 | every classification is canonical: arguments and messages are non-empty and trimmed, and no message looks like a command |
| Console.ClassifyConnectLine | lora_chat.py:233-235 | `:connect ` followed by a trimmed argument is a `Connect` of exactly that argument |
| Console.ConnectLineWithRun | lora_chat.py:233-235 | the argument is what follows the whole whitespace run after the verb |
| Console.ClassifyPadded | lora_chat.py:220 | surrounding whitespace never changes a line's classification |
| Console.SentAsText | lora_chat.py:236-237 | a stripped line that is no command is sent unchanged |
| Console.UnknownWordIsSent | lora_chat.py:236-237 | `:bogus` is sent as text, not rejected |
| Console.UpperCaseQuitIsSent | lora_chat.py:226-227 | `:QUIT` is not `:quit`; matching is case-sensitive |
| Console.BareConnectIsSent | lora_chat.py:233-237 | `:connect` without an argument, even padded, is sent as text |
| Console.ConnectTabIsSent | lora_chat.py:233 | `:connect` followed by a tab fails the prefix test and is sent as text |
| Console.ConnectArgumentExample | lora_chat.py:233-234 | `:connect   ab cd` connects to `ab cd` |
| Hex.FromHex | lora_chat.py:129-133 | `bytes.fromhex`, `None` for the `ValueError`: accepted text has at least two characters per decoded byte; its accepted set is pinned by the lemmas below |
| Hex.LeadingSpaceSkipped | lora_chat.py:129-130 | ASCII whitespace in front of any text never changes what it decodes to |
| Hex.FromHexAppend | lora_chat.py:129-130 | decoding two texts one after the other, where the first decodes, gives the two decodings one after the other |
| Hex.SpaceBetweenPairs | lora_chat.py:129-130 | ASCII whitespace between two decodable texts, such as between byte pairs (`ab cd`), is skipped |
| Hex.EvenHexAccepted | lora_chat.py:129-130 | every even-length run of hex digits, in either case, decodes, to one byte per pair |
| Hex.RejectedAfterPrefix | lora_chat.py:129-133 | a decodable prefix ends on a pair boundary, so text that is rejected stays rejected after it |
| Hex.SpaceInsidePairRejected | lora_chat.py:129-133 | whitespace between the two digits of a byte is rejected, wherever the pair stands |
| Hex.ToHex | lora_chat.py:72-74 | the address display has two hex digits per byte and no separators |
| Hex.FromHexToHex | lora_chat.py:130 | decoding an address display gives the bytes back |
| Hex.ToHexFromHex | lora_chat.py:130 | a whitespace-free string that decodes is the display of its bytes, up to letter case |
| Hex.FromHexShape | lora_chat.py:129-133 | what decodes consists only of hex digits and ASCII whitespace, and gives one byte per two digits |
| Hex.FromHexRejects | lora_chat.py:129-133 | an odd number of digits, or any other character, is rejected |
| Hex.FromHexIgnoresCase | lora_chat.py:130 | letter case never changes the decoding |
| Mesh.Resolve | lora_chat.py:82-105 | an identity results exactly when `has_path` says yes within the initial check and `budget + 1` polls and `recall` returns one within the initial recall and `budget` more, and it is one that `recall` returned |
| Mesh.PathSeen | lora_chat.py:88-94 | a path is found exactly when some `has_path` answer within the polled range is yes |
| Mesh.FirstRecall | lora_chat.py:97-104 | the recalled identity is the first one the polls return within range, and there is one exactly when some poll returns one |
| Mesh.AwaitPath | lora_chat.py:87-94 | a path request is sent exactly when the first `has_path` says no; the wait succeeds exactly when `has_path` says yes within the initial check and `budget + 1` polls |
| Mesh.AwaitIdentity | lora_chat.py:96-105 | the result is the first identity recalled within the initial recall and `budget` more, and is absent exactly when none is |
| Mesh.WaitForPathAndIdentity | lora_chat.py:82-105 | the combined wait yields an identity only after a path was seen, and equals the functional `Resolve` |
| Node.Connect | lora_chat.py:127-152 | bad hex: state unchanged, only "must be hex" reported; good hex: peer set to the decoded bytes, and a path request is issued exactly when the first `has_path` says no; unresolved: link unchanged, the trace ends with the "could not obtain path/identity" report; resolved: a new link to the resolved identity replaces the old one, which is not closed, and the trace ends with opening it and "Attempting to establish link"; returns True exactly when hex and resolution both succeed; never sends data or announces |
| Node.PacketAttempt | lora_chat.py:170-176 | the packet goes out, to the destination of the resolved identity and carrying the text, exactly when the peer resolved and `send()` succeeded; otherwise "Packet send failed" is reported, telling an unresolved peer apart from a failed send |
| Node.Fallback | lora_chat.py:166-176 | no peer: only "No peer set"; with a peer: a path request exactly when the first `has_path` says no, then one final effect: the packet to the resolved peer's destination when it resolves and the send succeeds, "Packet send failed" (unresolved) when it does not resolve, "Packet send failed" (send) when the send fails; a packet is sent exactly in the first case |
| Node.SendText | lora_chat.py:154-176 | a case table: with an ACTIVE link whose send succeeds, exactly one link send and nothing else; with an ACTIVE link whose send fails, exactly the "Link send failed" report followed by the packet fallback; without an ACTIVE link, exactly the packet fallback; in every case at most one send, carrying the text, and a send or a reported failure |
| Node.LinkFailureFallsBack | lora_chat.py:159-176 | in a reachable state a failed link send is reported and followed by exactly the packet path, never by "No peer set": the trace ends with the packet to the resolved peer when it resolves and the packet send succeeds, and with the matching "Packet send failed" otherwise |
| Session.Step | lora_chat.py:182-204 | callbacks leave the state unchanged and print one line; only a `:connect` line changes the state; `:quit` stops; a peer once set stays set; at most one send, only for a message line |
| Session.Dispatch | lora_chat.py:224-237 | per command: an empty line and `:quit` have no effect at all; only `:quit` stops; `:me` prints only the own address display; an announce is broadcast exactly for `:announce`, whose trace is exactly one broadcast and its report; only `Connect` may change state, and it does exactly what `connect` does; only `Send` may send, and it does exactly what `send_text` does |
| Session.Run | lora_chat.py:218-237 | the reader loop ends by quitting exactly when one of its lines is `:quit` |
| Session.StepLine | lora_chat.py:218-237 | a console line is classified and dispatched, and nothing else happens to it |
| Session.RunOne | lora_chat.py:218-237 | running a single input has exactly that input's effect on the state and the trace |
| Session.RunAppend | lora_chat.py:218-237 | inputs are handled in order: a run that does not quit within its first part continues from the state that part leaves, and the traces follow one another |
| Session.RunInvariants | lora_chat.py:218-237 | over any run the own hash is fixed, a set peer stays set, and "a link implies a peer" is kept |
| Session.RunFromStart | lora_chat.py:67-68 | every state reachable from the initial no-peer, no-link node has a peer whenever it has a link |
| Session.RunWithoutConnect | lora_chat.py:218-237 | a run without `:connect` lines leaves peer and link untouched |
| Session.RunStopsAtQuit | lora_chat.py:226-227 | nothing after `:quit` has any effect |
| Session.RunSendsAtMostOncePerLine | lora_chat.py:236-237 | the number of link or packet sends in a run is at most the number of message lines |
| Session.ShowAddress | lora_chat.py:228-229 | `:me` prints the node's own hash in the hex display |
| Session.ConnectToShownAddress | lora_chat.py:9-10 | typing `:connect ` plus another node's displayed address sets that node's hash as the peer |

## Left out

- The Reticulum library is not modelled: `RNS.Reticulum`, `Destination`, `Link`, `Packet`, `Transport.has_path`/`request_path`, `Identity.recall`, `hexrep` and announce. Its answers are oracle inputs and its calls are trace effects.
- Mesh.AwaitPath: the 10-second deadline with 0.1-second sleeps becomes a count of sleeps (`budget`, nominally 100); real elapsed time and sleep overshoot are not modelled.
- Mesh.AwaitIdentity: the same replacement of wall-clock time by a poll budget.
- Node.SendText: whether the link or packet send raises is an oracle input. The model does not look inside the library's `send` calls.
- Node.Connect: an exception raised by `RNS.Link(out_dest)` itself would leave `connect`; the model assumes the constructor returns. The callback registration at lines 143-149 swallows its own errors and has no effect on state, so it is not represented.
- Identity loading and saving (`load_or_create_identity`, lines 29-38) is file I/O; the node's own hash is a parameter.
- Node construction (lines 44-65), the optional proof strategy and `main` (lines 240-261) are set-up and argument parsing.
- Threads: the reader thread and the library's callback thread run concurrently in the program. The model handles their inputs in one interleaved order, so races on `self.link` are not modelled.
- UTF-8 encoding and decoding with replacement (lines 156, 185, 194) are left out; a message's payload is its text.
- Printed text is reduced to `Notice` values; the exact wording and the prompt are left out.
- `input()` ending with EOF or Ctrl-C is the end of the input sequence.
- Hex.FromHex follows CPython 3.7 and later, which skip any ASCII whitespace between byte pairs; older versions skipped only spaces.
- The peer address length is not checked by the program and is not constrained in the model; what the library does with a hash of the wrong length is part of the oracle.

=== FILE: console.dfy ===
/**
  The console reader's dispatch: each line typed at the prompt is stripped
  and then either ignored, recognised as one of the fixed commands by exact
  (case-sensitive) comparison, recognised as `:connect ` followed by a peer
  address, or else sent as a chat message, unknown `:` words included.
*/
module Console {
  import opened Text

  datatype Command =
    | NoOp
    | Quit
    | Me
    | Announce
    | Connect(peer: string)
    | Send(text: string)

  const QuitWord: string := ":quit"
  const MeWord: string := ":me"
  const AnnounceWord: string := ":announce"
  const ConnectWord: string := ":connect"
  /** The prefix test uses the verb followed by one ASCII space. */
  const ConnectPrefix: string := ConnectWord + " "

  /**
    `arg` is what `line.split(None, 1)[1]` yields for a stripped line that
    starts with `:connect `: the line is the verb, a non-empty whitespace
    run, then `arg`, which is non-empty and has no surrounding whitespace.
  */
  ghost predicate ConnectArgument(line: string, arg: string) {
    && arg != []
    && Trimmed(arg)
    && |ConnectWord| < |line| - |arg|
    && line == ConnectWord + line[|ConnectWord|..|line| - |arg|] + arg
    && AllSpace(line[|ConnectWord|..|line| - |arg|])
  }

  /** Classifies one raw console line. */
  function Classify(raw: string): (c: Command)
    ensures c == NoOp <==> AllSpace(raw)
    ensures c == Quit <==> Strip(raw) == QuitWord
    ensures c == Me <==> Strip(raw) == MeWord
    ensures c == Announce <==> Strip(raw) == AnnounceWord
    ensures c.Connect? <==> HasPrefix(Strip(raw), ConnectPrefix)
    ensures c.Connect? ==> ConnectArgument(Strip(raw), c.peer)
    ensures c.Send? ==> c.text == Strip(raw) && c.text != []
  {
    var line := Strip(raw);
    if line == [] then NoOp
    else if line == QuitWord then Quit
    else if line == MeWord then Me
    else if line == AnnounceWord then Announce
    else if HasPrefix(line, ConnectPrefix) then
      ConnectSplit(line);
      Connect(SplitOnce(line)[1])
    else Send(line)
  }

  /**
    On a stripped line starting with `:connect `, `split(None, 1)` yields
    two parts, so taking the second never fails, and it is the argument.
  */
  lemma ConnectSplit(line: string)
    requires Trimmed(line) && HasPrefix(line, ConnectPrefix)
    ensures |SplitOnce(line)| == 2
    ensures SplitOnce(line)[0] == ConnectWord
    ensures ConnectArgument(line, SplitOnce(line)[1])
  {
    var n := |ConnectWord|;
    assert line[..n] == ConnectWord;
    assert IsSpace(line[n]);
    SkipSpaceOver(line, 0, 0);
    SkipWordOver(line, 0, n);
    var k := SkipSpace(line, n);
    assert !IsSpace(line[|line| - 1]);
    assert k < |line|;
    var arg := line[k..];
    assert SplitOnce(line) == [line[0..n], arg];
    assert line == line[..n] + line[n..k] + arg;
  }

  /** The canonical console line for a command. */
  function Render(c: Command): string {
    match c
    case NoOp => []
    case Quit => QuitWord
    case Me => MeWord
    case Announce => AnnounceWord
    case Connect(p) => ConnectPrefix + p
    case Send(t) => t
  }

  /** The commands `Classify` can produce. */
  predicate Canonical(c: Command) {
    match c
    case Connect(p) => p != [] && Trimmed(p)
    case Send(t) =>
      && t != []
      && Trimmed(t)
      && t != QuitWord && t != MeWord && t != AnnounceWord
      && !HasPrefix(t, ConnectPrefix)
    case _ => true
  }

  /** Every classification is canonical. */
  lemma ClassifyCanonical(raw: string)
    ensures Canonical(Classify(raw))
  {
  }

  /** Rendering a canonical command and reading it back gives the command. */
  lemma ClassifyRender(c: Command)
    requires Canonical(c)
    ensures Classify(Render(c)) == c
  {
    match c
    case NoOp =>
    case Connect(p) => ClassifyConnectLine(p);
    case _ =>
      StripTrimmed(Render(c));
  }

  /** `:connect ` followed by a trimmed argument reads back as that argument. */
  lemma ClassifyConnectLine(p: string)
    requires p != [] && Trimmed(p)
    ensures Classify(ConnectPrefix + p) == Connect(p)
  {
    var line := ConnectPrefix + p;
    assert line[0] == ':' && line[|line| - 1] == p[|p| - 1];
    StripTrimmed(line);
    assert line[..|ConnectPrefix|] == ConnectPrefix;
    var n := |ConnectWord|;
    assert line[n..|line| - |p|] == " ";
    assert line == ConnectWord + " " + p;
    assert ConnectArgument(line, p);
    ConnectArgumentUnique(line, p, Classify(line).peer);
  }

  /** The argument of a `:connect ` line is determined by the line. */
  lemma ConnectArgumentUnique(line: string, a: string, b: string)
    requires ConnectArgument(line, a) && ConnectArgument(line, b)
    ensures a == b
  {
  }

  /** Whitespace around a line never changes its classification. */
  lemma ClassifyPadded(a: string, line: string, b: string)
    requires AllSpace(a) && AllSpace(b)
    ensures Classify(a + line + b) == Classify(line)
  {
    StripAbsorbsPadding(a, line, b);
  }

  /** A stripped line that is no command is sent as it stands. */
  lemma SentAsText(line: string)
    requires line != [] && Trimmed(line)
    requires line != QuitWord && line != MeWord && line != AnnounceWord
    requires !HasPrefix(line, ConnectPrefix)
    ensures Classify(line) == Send(line)
  {
    StripTrimmed(line);
  }

  /** An unknown `:` word is sent as text, not rejected. */
  lemma UnknownWordIsSent()
    ensures Classify(":bogus") == Send(":bogus")
  {
    SentAsText(":bogus");
  }

  /** Commands are matched case-sensitively. */
  lemma UpperCaseQuitIsSent()
    ensures Classify(":QUIT") == Send(":QUIT")
  {
    SentAsText(":QUIT");
  }

  /** A bare `:connect`, even with whitespace around it, is sent as text. */
  lemma BareConnectIsSent()
    ensures Classify("  :connect  ") == Send(":connect")
  {
    SentAsText(ConnectWord);
    assert "  :connect  " == "  " + ConnectWord + "  ";
    ClassifyPadded("  ", ConnectWord, "  ");
  }

  /** Only an ASCII space after the verb makes a `:connect` line. */
  lemma ConnectTabIsSent()
    ensures Classify(":connect\tabc") == Send(":connect\tabc")
  {
    var line := ":connect\tabc";
    assert line[..|ConnectPrefix|][8] != ConnectPrefix[8];
    SentAsText(line);
  }

  /** The argument of `:connect` is what follows the whitespace run after the verb. */
  lemma ConnectArgumentExample()
    ensures Classify(":connect   ab cd") == Connect("ab cd")
  {
    assert ":connect   ab cd" == ConnectWord + "   " + "ab cd";
    ConnectLineWithRun("ab cd", "   ");
  }

  /** `:connect`, any whitespace run, then a trimmed argument. */
  lemma ConnectLineWithRun(p: string, ws: string)
    requires p != [] && Trimmed(p) && ws != [] && AllSpace(ws) && ws[0] == ' '
    ensures Classify(ConnectWord + ws + p) == Connect(p)
  {
    var line := ConnectWord + ws + p;
    assert line[0] == ':' && line[|line| - 1] == p[|p| - 1];
    StripTrimmed(line);
    assert line[..|ConnectPrefix|] == ConnectPrefix;
    assert line[|ConnectWord|..|line| - |p|] == ws;
    assert ConnectArgument(line, p);
    ConnectArgumentUnique(line, p, Classify(line).peer);
  }
}

=== FILE: hex.dfy ===
/**
  Hexadecimal text and bytes. `FromHex` follows CPython's `bytes.fromhex`
  (3.7 and later): two hex digits per byte in either case, ASCII whitespace
  allowed between byte pairs but not inside one, anything else rejected.
  `ToHex` is the node's address display: two lower-case digits per byte,
  no separators.
*/
module Hex {
  import opened Wrappers

  newtype byte = x: int | 0 <= x < 256
  type Bytes = seq<byte>

  predicate IsHexDigit(c: char) {
    ('0' <= c <= '9') || ('a' <= c <= 'f') || ('A' <= c <= 'F')
  }

  /** CPython's `Py_ISSPACE`: space, tab, newline, vertical tab, form feed, carriage return. */
  predicate IsAsciiSpace(c: char) {
    c == ' ' || ('\t' <= c <= '\r')
  }

  function DigitValue(c: char): (v: nat)
    requires IsHexDigit(c)
    ensures v < 16
  {
    if '0' <= c <= '9' then (c as int) - ('0' as int)
    else if 'a' <= c <= 'f' then (c as int) - ('a' as int) + 10
    else (c as int) - ('A' as int) + 10
  }

  /** The lower-case digit for a value below 16. */
  function Digit(v: nat): (c: char)
    requires v < 16
    ensures IsHexDigit(c) && DigitValue(c) == v
    ensures !('A' <= c <= 'Z')
  {
    if v < 10 then (('0' as int) + v) as char else (('a' as int) + v - 10) as char
  }

  /** `bytes.fromhex(s)`, with `None` for the `ValueError` it raises. */
  function FromHex(s: string): (r: Option<Bytes>)
    ensures r.Some? ==> 2 * |r.value| <= |s|
    decreases |s|
  {
    if s == [] then Some([])
    else if IsAsciiSpace(s[0]) then FromHex(s[1..])
    else if |s| >= 2 && IsHexDigit(s[0]) && IsHexDigit(s[1]) then
      match FromHex(s[2..])
      case None => None
      case Some(rest) => Some([(DigitValue(s[0]) * 16 + DigitValue(s[1])) as byte] + rest)
    else None
  }

  /** The address display of `RNS.hexrep(h, delimit=False)`. */
  function ToHex(b: Bytes): (s: string)
    ensures |s| == 2 * |b|
    ensures forall i :: 0 <= i < |s| ==> IsHexDigit(s[i]) && !IsAsciiSpace(s[i])
  {
    if b == [] then [] else [Digit(b[0] as int / 16), Digit(b[0] as int % 16)] + ToHex(b[1..])
  }

  /** ASCII lower-casing, the only case difference `fromhex` ignores. */
  function Lower(c: char): (d: char) {
    if 'A' <= c <= 'Z' then ((c as int) + 32) as char else c
  }

  function LowerAll(s: string): (t: string)
    ensures |t| == |s|
    ensures forall i :: 0 <= i < |s| ==> t[i] == Lower(s[i])
  {
    if s == [] then [] else [Lower(s[0])] + LowerAll(s[1..])
  }

  /** Number of characters of `s` that are not ASCII whitespace. */
  function DigitCount(s: string): (n: nat)
    ensures n <= |s|
  {
    if s == [] then 0 else (if IsAsciiSpace(s[0]) then 0 else 1) + DigitCount(s[1..])
  }

  /** Decoding the display of `b` gives `b` back. */
  lemma {:induction false} FromHexToHex(b: Bytes)
    ensures FromHex(ToHex(b)) == Some(b)
  {
    if b != [] {
      var s := ToHex(b);
      var hi, lo := b[0] as int / 16, b[0] as int % 16;
      assert s[0] == Digit(hi) && s[1] == Digit(lo);
      assert s[2..] == ToHex(b[1..]);
      FromHexToHex(b[1..]);
      assert (DigitValue(s[0]) * 16 + DigitValue(s[1])) as byte == b[0];
      assert [b[0]] + b[1..] == b;
    }
  }

  /**
    Conversely, a digit string without whitespace that decodes is the
    display of what it decodes to, up to letter case.
  */
  lemma {:induction false} ToHexFromHex(s: string)
    requires forall i :: 0 <= i < |s| ==> !IsAsciiSpace(s[i])
    requires FromHex(s).Some?
    ensures ToHex(FromHex(s).value) == LowerAll(s)
  {
    if s != [] {
      FromHexPair(s);
      var tail := s[2..];
      assert forall i :: 0 <= i < |tail| ==> !IsAsciiSpace(tail[i]) by {
        forall i | 0 <= i < |tail| ensures !IsAsciiSpace(tail[i]) {
          assert tail[i] == s[i + 2];
        }
      }
      ToHexFromHex(tail);
      var rest := FromHex(tail).value;
      var v := DigitValue(s[0]) * 16 + DigitValue(s[1]);
      var b := v as byte;
      assert FromHex(s).value == [b] + rest;
      PairRoundTrip(s[0], s[1]);
      assert Digit(b as int / 16) == Lower(s[0]) && Digit(b as int % 16) == Lower(s[1]);
      ToHexCons(b, rest);
      LowerAllPair(s);
      assert ToHex([b] + rest) == [Lower(s[0]), Lower(s[1])] + LowerAll(tail);
    }
  }

  lemma LowerAllPair(s: string)
    requires |s| >= 2
    ensures LowerAll(s) == [Lower(s[0]), Lower(s[1])] + LowerAll(s[2..])
  {
    assert s[1..][1..] == s[2..];
  }

  /** A decodable string that does not start with whitespace starts with a byte pair. */
  lemma FromHexPair(s: string)
    requires s != [] && !IsAsciiSpace(s[0]) && FromHex(s).Some?
    ensures |s| >= 2 && IsHexDigit(s[0]) && IsHexDigit(s[1]) && FromHex(s[2..]).Some?
    ensures FromHex(s).value == [(DigitValue(s[0]) * 16 + DigitValue(s[1])) as byte] + FromHex(s[2..]).value
  {
  }

  lemma ToHexCons(b: byte, rest: Bytes)
    ensures ToHex([b] + rest) == [Digit(b as int / 16), Digit(b as int % 16)] + ToHex(rest)
  {
    assert ([b] + rest)[1..] == rest;
  }

  /** One byte's two digits, decoded and shown again, come back lower-cased. */
  lemma PairRoundTrip(hi: char, lo: char)
    requires IsHexDigit(hi) && IsHexDigit(lo)
    ensures var v := DigitValue(hi) * 16 + DigitValue(lo);
            Digit(v / 16) == Lower(hi) && Digit(v % 16) == Lower(lo)
  {
    LowerDigit(hi);
    LowerDigit(lo);
  }

  lemma LowerDigit(c: char)
    requires IsHexDigit(c)
    ensures Digit(DigitValue(c)) == Lower(c)
  {
  }

  /**
    What `fromhex` accepts: every character is a hex digit or ASCII
    whitespace, and the decoded bytes are exactly half the digits.
  */
  lemma FromHexShape(s: string)
    requires FromHex(s).Some?
    ensures forall i :: 0 <= i < |s| ==> IsHexDigit(s[i]) || IsAsciiSpace(s[i])
    ensures 2 * |FromHex(s).value| == DigitCount(s)
  {
    FromHexChars(s);
    FromHexCount(s);
  }

  lemma {:induction false} FromHexChars(s: string)
    requires FromHex(s).Some?
    ensures forall i :: 0 <= i < |s| ==> IsHexDigit(s[i]) || IsAsciiSpace(s[i])
    decreases |s|
  {
    if s != [] {
      if IsAsciiSpace(s[0]) {
        SpaceStep(s);
        var tail := s[1..];
        FromHexChars(tail);
        assert forall i :: 1 <= i < |s| ==> s[i] == tail[i - 1];
      } else {
        FromHexPair(s);
        var tail := s[2..];
        FromHexChars(tail);
        assert forall i :: 2 <= i < |s| ==> s[i] == tail[i - 2];
      }
    }
  }

  lemma {:induction false} FromHexCount(s: string)
    requires FromHex(s).Some?
    ensures 2 * |FromHex(s).value| == DigitCount(s)
    decreases |s|
  {
    if s != [] {
      if IsAsciiSpace(s[0]) {
        SpaceStep(s);
        FromHexCount(s[1..]);
      } else {
        FromHexPair(s);
        FromHexCount(s[2..]);
        assert s[1..][1..] == s[2..];
        assert DigitCount(s) == 2 + DigitCount(s[2..]);
      }
    }
  }

  /** Whitespace before a byte pair is skipped. */
  lemma SpaceStep(s: string)
    requires s != [] && IsAsciiSpace(s[0])
    ensures FromHex(s) == FromHex(s[1..])
  {
  }

  /** An odd number of digits, or any character that is neither a digit nor whitespace, is rejected. */
  lemma {:induction false} FromHexRejects(s: string)
    requires DigitCount(s) % 2 == 1 || exists i :: 0 <= i < |s| && !IsHexDigit(s[i]) && !IsAsciiSpace(s[i])
    ensures FromHex(s) == None
  {
    if FromHex(s).Some? {
      FromHexShape(s);
    }
  }

  /** Letter case never matters to `fromhex`. */
  lemma {:induction false} FromHexIgnoresCase(s: string)
    ensures FromHex(LowerAll(s)) == FromHex(s)
  {
    if s != [] {
      var t := LowerAll(s);
      assert t[1..] == LowerAll(s[1..]);
      if |s| >= 2 {
        assert t[2..] == LowerAll(s[2..]);
        FromHexIgnoresCase(s[2..]);
      }
      FromHexIgnoresCase(s[1..]);
    }
  }

  /** Any even-length run of hex digits, in either case, decodes to one byte per pair. */
  lemma {:induction false} EvenHexAccepted(s: string)
    requires |s| % 2 == 0
    requires forall i :: 0 <= i < |s| ==> IsHexDigit(s[i])
    ensures FromHex(s).Some? && 2 * |FromHex(s).value| == |s|
    decreases |s|
  {
    if s != [] {
      var tail := s[2..];
      assert forall i :: 0 <= i < |tail| ==> tail[i] == s[i + 2];
      EvenHexAccepted(tail);
      assert !IsAsciiSpace(s[0]);
    }
  }

  /**
    A decodable prefix ends on a pair boundary, so text that fails to
    decode still fails after it.
  */
  lemma {:induction false} RejectedAfterPrefix(a: string, b: string)
    requires FromHex(a).Some? && FromHex(b).None?
    ensures FromHex(a + b).None?
    decreases |a|
  {
    if a == [] {
      assert a + b == b;
    } else if IsAsciiSpace(a[0]) {
      SpaceStep(a);
      SpaceShift(a, b);
      RejectedAfterPrefix(a[1..], b);
    } else {
      FromHexPair(a);
      PairShift(a, b);
      RejectedAfterPrefix(a[2..], b);
    }
  }

  /**
    Decoding a concatenation at a boundary where the first part decodes
    gives the two decodings one after the other.
  */
  lemma {:induction false} FromHexAppend(a: string, b: string)
    requires FromHex(a).Some? && FromHex(b).Some?
    ensures FromHex(a + b) == Some(FromHex(a).value + FromHex(b).value)
    decreases |a|
  {
    if a == [] {
      assert a + b == b;
      assert FromHex(a).value + FromHex(b).value == FromHex(b).value;
    } else if IsAsciiSpace(a[0]) {
      FromHexAppend(a[1..], b);
      SpaceShift(a, b);
      SpaceStep(a);
    } else {
      FromHexPair(a);
      FromHexAppend(a[2..], b);
      PairShift(a, b);
      var v := (DigitValue(a[0]) * 16 + DigitValue(a[1])) as byte;
      var x, y := FromHex(a[2..]).value, FromHex(b).value;
      assert [v] + (x + y) == ([v] + x) + y;
    }
  }

  /**
    ASCII whitespace between two decodable texts, in particular between
    byte pairs, is skipped.
  */
  lemma SpaceBetweenPairs(a: string, ws: string, b: string)
    requires FromHex(a).Some? && FromHex(b).Some?
    requires forall i :: 0 <= i < |ws| ==> IsAsciiSpace(ws[i])
    ensures FromHex(a + ws + b) == Some(FromHex(a).value + FromHex(b).value)
  {
    var wb := ws + b;
    assert a + ws + b == a + wb;
    LeadingSpaceSkipped(ws, b);
    FromHexAppend(a, wb);
  }

  /** A whitespace step taken inside a concatenation. */
  lemma SpaceShift(a: string, b: string)
    requires a != [] && IsAsciiSpace(a[0])
    ensures FromHex(a + b) == FromHex(a[1..] + b)
  {
    var ab := a + b;
    assert ab[1..] == a[1..] + b;
    SpaceStep(ab);
  }

  /** A byte-pair step taken inside a concatenation. */
  lemma PairShift(a: string, b: string)
    requires |a| >= 2 && IsHexDigit(a[0]) && IsHexDigit(a[1])
    ensures FromHex(a[2..] + b).None? ==> FromHex(a + b).None?
    ensures FromHex(a[2..] + b).Some? ==>
              FromHex(a + b) == Some([(DigitValue(a[0]) * 16 + DigitValue(a[1])) as byte] + FromHex(a[2..] + b).value)
  {
    var ab := a + b;
    assert ab[0] == a[0] && ab[1] == a[1] && ab[2..] == a[2..] + b;
    PairStep(ab);
  }

  /** One decoding step at a byte pair. */
  lemma PairStep(s: string)
    requires |s| >= 2 && IsHexDigit(s[0]) && IsHexDigit(s[1])
    ensures FromHex(s[2..]).None? ==> FromHex(s).None?
    ensures FromHex(s[2..]).Some? ==>
              FromHex(s) == Some([(DigitValue(s[0]) * 16 + DigitValue(s[1])) as byte] + FromHex(s[2..]).value)
  {
    assert !IsAsciiSpace(s[0]);
  }

  /**
    Whitespace inside a byte pair is rejected, wherever the pair stands:
    after any decodable text, a hex digit followed by whitespace fails.
  */
  lemma SpaceInsidePairRejected(a: string, x: char, y: char, b: string)
    requires FromHex(a).Some?
    requires IsHexDigit(x) && IsAsciiSpace(y)
    ensures FromHex(a + [x, y] + b) == None
  {
    var rest := [x, y] + b;
    assert a + [x, y] + b == a + rest;
    assert FromHex(rest) == None by {
      assert rest[0] == x && rest[1] == y;
      assert !IsAsciiSpace(x);
    }
    RejectedAfterPrefix(a, rest);
  }

  /** Whitespace in front of any text is skipped: it never changes the decoding. */
  lemma {:induction false} LeadingSpaceSkipped(ws: string, s: string)
    requires forall i :: 0 <= i < |ws| ==> IsAsciiSpace(ws[i])
    ensures FromHex(ws + s) == FromHex(s)
    decreases |ws|
  {
    if ws == [] {
      assert ws + s == s;
    } else {
      var t := ws + s;
      assert t[0] == ws[0] && t[1..] == ws[1..] + s;
      SpaceStep(t);
      LeadingSpaceSkipped(ws[1..], s);
    }
  }
}

=== FILE: mesh.dfy ===
/**
  The mesh stack as the node sees it. The library itself is an oracle: the
  answers it gives to the node's path and identity queries are inputs, and
  wall-clock waiting is replaced by a budget of polls. With the program's
  10-second timeout and 0.1-second step the nominal budget is 100 sleeps.
*/
module Mesh {
  import opened Wrappers
  import opened Hex

  /** A peer's public identity, recalled from its announce. */
  datatype Identity = Identity(publicKey: Bytes)

  /** An outbound single destination `apps.lora_chat.simple` built from a peer identity. */
  datatype Destination = OutSingle(identity: Identity)

  /** The states the library reports for a link; only `Active` matters to sending. */
  datatype LinkStatus = Pending | Handshake | Active | Stale | Closed

  /** A link object; `handle` tells apart links opened to the same destination. */
  datatype Link = Link(handle: nat, dest: Destination)

  /**
    The answers one resolution gets: `pathAnswers[k]` is the k-th reply of
    `has_path`, `recallAnswers[k]` the k-th reply of `Identity.recall`. A
    query past the end of a recorded sequence reads as "not yet". `budget`
    is the number of sleeps each wait may make before its deadline passes.
  */
  datatype Resolution = Resolution(pathAnswers: seq<bool>, recallAnswers: seq<Option<Identity>>, budget: nat)

  function PathAnswer(r: Resolution, k: nat): bool {
    k < |r.pathAnswers| && r.pathAnswers[k]
  }

  function RecallAnswer(r: Resolution, k: nat): Option<Identity> {
    if k < |r.recallAnswers| then r.recallAnswers[k] else None
  }

  /** Whether `has_path` answers yes at some query between `k` and `last`. */
  function PathSeen(r: Resolution, k: nat, last: nat): (b: bool)
    ensures b <==> exists j :: k <= j <= last && PathAnswer(r, j)
    decreases last + 1 - k
  {
    if k > last then false else PathAnswer(r, k) || PathSeen(r, k + 1, last)
  }

  /** The first identity recalled between queries `k` and `last`, if any. */
  function FirstRecall(r: Resolution, k: nat, last: nat): (id: Option<Identity>)
    ensures id.Some? <==> exists j :: k <= j <= last && RecallAnswer(r, j).Some?
    ensures id.Some? ==> exists j :: k <= j <= last && RecallAnswer(r, j) == id
                                     && forall i :: k <= i < j ==> RecallAnswer(r, i).None?
    decreases last + 1 - k
  {
    if k > last then None
    else if RecallAnswer(r, k).Some? then RecallAnswer(r, k)
    else FirstRecall(r, k + 1, last)
  }

  /**
    The outcome of waiting for a path and then an identity: a path must show
    up within the initial query and `budget + 1` polls, then an identity
    within the initial recall and `budget` more.
  */
  function Resolve(r: Resolution): (id: Option<Identity>)
    ensures id.Some? <==> (exists j :: 0 <= j <= r.budget + 1 && PathAnswer(r, j))
                          && (exists j :: 0 <= j <= r.budget && RecallAnswer(r, j).Some?)
    ensures id.Some? ==> exists j :: 0 <= j <= r.budget && RecallAnswer(r, j) == id
  {
    if PathSeen(r, 0, r.budget + 1) then FirstRecall(r, 0, r.budget) else None
  }

  /** A path request is sent exactly when the first `has_path` says no. */
  function PathRequested(r: Resolution): bool {
    !PathAnswer(r, 0)
  }

  /**
    The path wait: ask `has_path`; if it says no, request a path and poll,
    sleeping between polls, until it says yes or the deadline has passed.
  */
  method AwaitPath(r: Resolution) returns (found: bool, requested: bool)
    ensures requested <==> !PathAnswer(r, 0)
    ensures found <==> exists j :: 0 <= j <= r.budget + 1 && PathAnswer(r, j)
    ensures found == PathSeen(r, 0, r.budget + 1)
  {
    found := PathAnswer(r, 0);
    requested := !found;
    if requested {
      var sleeps := 0;
      while !PathAnswer(r, sleeps + 1)
        invariant 0 <= sleeps <= r.budget
        invariant forall j :: 0 <= j <= sleeps ==> !PathAnswer(r, j)
        decreases r.budget - sleeps
      {
        if sleeps == r.budget {
          return;
        }
        sleeps := sleeps + 1;
      }
      found := true;
    }
  }

  /**
    The identity wait: recall once; while nothing is recalled, give up if
    the deadline has passed, otherwise sleep and recall again.
  */
  method AwaitIdentity(r: Resolution) returns (id: Option<Identity>)
    ensures id.Some? <==> exists j :: 0 <= j <= r.budget && RecallAnswer(r, j).Some?
    ensures id.Some? ==> exists j :: 0 <= j <= r.budget && RecallAnswer(r, j) == id
                                     && forall i :: 0 <= i < j ==> RecallAnswer(r, i).None?
  {
    id := RecallAnswer(r, 0);
    var sleeps := 0;
    while id.None?
      invariant 0 <= sleeps <= r.budget
      invariant id == RecallAnswer(r, sleeps)
      invariant forall i :: 0 <= i < sleeps ==> RecallAnswer(r, i).None?
      decreases r.budget - sleeps
    {
      if sleeps == r.budget {
        return;
      }
      sleeps := sleeps + 1;
      id := RecallAnswer(r, sleeps);
    }
  }

  /** Both waits in sequence, as the node performs them before building a destination. */
  method WaitForPathAndIdentity(r: Resolution) returns (id: Option<Identity>, requested: bool)
    ensures requested == PathRequested(r)
    ensures id == Resolve(r)
    ensures id.Some? ==> PathSeen(r, 0, r.budget + 1)
  {
    var found;
    found, requested := AwaitPath(r);
    if !found {
      return None, requested;
    }
    id := AwaitIdentity(r);
    FirstRecallUnique(r, 0, r.budget, id);
  }

  /** The first recalled identity is the only value meeting `FirstRecall`'s description. */
  lemma FirstRecallUnique(r: Resolution, k: nat, last: nat, id: Option<Identity>)
    requires id.Some? <==> exists j :: k <= j <= last && RecallAnswer(r, j).Some?
    requires id.Some? ==> exists j :: k <= j <= last && RecallAnswer(r, j) == id
                                     && forall i :: k <= i < j ==> RecallAnswer(r, i).None?
    ensures id == FirstRecall(r, k, last)
  {
  }
}

=== FILE: node.dfy ===
/**
  The chat node's session state and its operations. The state the program
  mutates is the pair (peer hash, current link); the node's own destination
  hash is fixed at start-up. Every operation returns the new state together
  with the trace of effects it has on the mesh stack and the console.
*/
module Node {
  import opened Wrappers
  import opened Hex
  import opened Mesh

  datatype ChatNode = ChatNode(own: Bytes, peerHash: Option<Bytes>, link: Option<Link>)

  /** What the node prints, one value per kind of console message. */
  datatype Notice =
    | NotHex                         // the peer address was not hex
    | Unreachable                    // no path or identity for the peer in time
    | Attempting                     // a link is being established
    | LinkSendFailed
    | NoPeer                         // a message was typed before any peer was set
    | PacketSendFailed(unresolved: bool)
    | AnnounceSent
    | YourAddress(hex: string)
    | LinkEstablished
    | LinkClosed
    | Received(text: string)
    | ReceivedOnLink(text: string)

  /** Failure notices: the ones that tell the user an operation did not go through. */
  predicate IsFailure(n: Notice) {
    n.NotHex? || n.Unreachable? || n.LinkSendFailed? || n.NoPeer? || n.PacketSendFailed?
  }

  datatype Effect =
    | RequestPath(hash: Bytes)
    | OpenLink(link: Link)
    | LinkSend(link: Link, data: string)
    | PacketSend(dest: Destination, data: string)
    | Broadcast
    | Report(notice: Notice)

  predicate IsSend(e: Effect) {
    e.LinkSend? || e.PacketSend?
  }

  function SendCount(t: seq<Effect>): (n: nat)
    ensures n <= |t|
    ensures n == 0 <==> forall i :: 0 <= i < |t| ==> !IsSend(t[i])
  {
    if t == [] then 0 else (if IsSend(t[0]) then 1 else 0) + SendCount(t[1..])
  }

  lemma {:induction false} SendCountAppend(a: seq<Effect>, b: seq<Effect>)
    ensures SendCount(a + b) == SendCount(a) + SendCount(b)
  {
    if a != [] {
      assert (a + b)[1..] == a[1..] + b;
      SendCountAppend(a[1..], b);
    } else {
      assert a + b == b;
    }
  }

  predicate ReportsFailure(t: seq<Effect>) {
    exists i :: 0 <= i < |t| && t[i].Report? && IsFailure(t[i].notice)
  }

  predicate NoLinkSend(t: seq<Effect>) {
    forall i :: 0 <= i < |t| ==> !t[i].LinkSend?
  }

  /** Every send in `t` carries `text`. */
  predicate Carries(t: seq<Effect>, text: string) {
    forall i :: 0 <= i < |t| && IsSend(t[i]) ==> t[i].data == text
  }

  /** Every packet in `t` goes to the destination built from `id`. */
  predicate PacketsTo(t: seq<Effect>, id: Option<Identity>) {
    forall i :: 0 <= i < |t| && t[i].PacketSend? ==> id == Some(t[i].dest.identity)
  }

  /** The last effect in `t` is `e`. */
  predicate EndsWith(t: seq<Effect>, e: Effect) {
    t != [] && t[|t| - 1] == e
  }

  /** How the trace properties above combine when traces are concatenated. */
  lemma TraceAppend(a: seq<Effect>, b: seq<Effect>, text: string, id: Option<Identity>)
    ensures SendCount(a + b) == SendCount(a) + SendCount(b)
    ensures ReportsFailure(a) || ReportsFailure(b) ==> ReportsFailure(a + b)
    ensures NoLinkSend(a) && NoLinkSend(b) ==> NoLinkSend(a + b)
    ensures Carries(a, text) && Carries(b, text) ==> Carries(a + b, text)
    ensures PacketsTo(a, id) && PacketsTo(b, id) ==> PacketsTo(a + b, id)
  {
    SendCountAppend(a, b);
    assert forall k :: 0 <= k < |a| ==> (a + b)[k] == a[k];
    assert forall k :: |a| <= k < |a + b| ==> (a + b)[k] == b[k - |a|];
    if ReportsFailure(b) {
      var k :| 0 <= k < |b| && b[k].Report? && IsFailure(b[k].notice);
      assert (a + b)[|a| + k] == b[k];
    }
  }

  /** The oracle answers for one console line: everything the mesh stack decides. */
  datatype World = World(
    resolution: Resolution,   // path and identity answers for the one resolution this line may run
    handle: nat,              // the link object a successful connect creates
    status: LinkStatus,       // the current link's status when a message is sent
    linkSendOk: bool,         // whether sending over the link succeeds
    packetSendOk: bool        // whether the fallback packet send succeeds
  )

  /** A node as constructed: no peer, no link. */
  function Start(own: Bytes): ChatNode {
    ChatNode(own, None, None)
  }

  /**
    A link is only ever opened after a peer has been set, and no operation
    clears the peer, so a node with a link always has a peer.
  */
  predicate Consistent(n: ChatNode) {
    n.link.Some? ==> n.peerHash.Some?
  }

  /** The path request a resolution of `h` sends, if any. */
  function RequestTrace(h: Bytes, r: Resolution): (t: seq<Effect>)
    ensures |t| <= 1 && SendCount(t) == 0
    ensures forall i :: 0 <= i < |t| ==> t[i] == RequestPath(h)
  {
    if PathRequested(r) then [RequestPath(h)] else []
  }

  datatype Connected = Connected(node: ChatNode, ok: bool, trace: seq<Effect>)

  /**
    `connect(peer_hex)`: decode the address, remember it as the peer, wait
    for a path and identity, and open a new link to it. The old link, if
    any, is dropped without being closed.
  */
  function Connect(n: ChatNode, peerHex: string, w: World): (c: Connected)
    ensures c.node.own == n.own
    ensures c.ok <==> FromHex(peerHex).Some? && Resolve(w.resolution).Some?
    ensures FromHex(peerHex).None? ==> c.node == n && c.trace == [Report(NotHex)]
    ensures FromHex(peerHex).Some? ==> c.node.peerHash == FromHex(peerHex)
    ensures !c.ok ==> c.node.link == n.link && c.trace != [] && c.trace[|c.trace| - 1].Report?
                      && IsFailure(c.trace[|c.trace| - 1].notice)
    ensures c.ok ==> c.node.link == Some(Link(w.handle, OutSingle(Resolve(w.resolution).value)))
    ensures FromHex(peerHex).Some? ==>
              && (RequestPath(FromHex(peerHex).value) in c.trace <==> PathRequested(w.resolution))
              && |c.trace| == (if PathRequested(w.resolution) then 1 else 0) + (if c.ok then 2 else 1)
    ensures FromHex(peerHex).Some? && !c.ok ==> EndsWith(c.trace, Report(Unreachable))
    ensures c.ok ==> EndsWith(c.trace, Report(Attempting))
                     && c.trace[|c.trace| - 2] == OpenLink(c.node.link.value)
    ensures SendCount(c.trace) == 0 && Broadcast !in c.trace
    ensures Consistent(n) ==> Consistent(c.node)
  {
    match FromHex(peerHex)
    case None => Connected(n, false, [Report(NotHex)])
    case Some(h) =>
      var n' := n.(peerHash := Some(h));
      var pre := RequestTrace(h, w.resolution);
      assert Broadcast !in pre;
      match Resolve(w.resolution)
      case None =>
        SendCountAppend(pre, [Report(Unreachable)]);
        Connected(n', false, pre + [Report(Unreachable)])
      case Some(id) =>
        var l := Link(w.handle, OutSingle(id));
        SendCountAppend(pre, [OpenLink(l), Report(Attempting)]);
        Connected(n'.(link := Some(l)), true, pre + [OpenLink(l), Report(Attempting)])
  }

  /** Whether `send_text` tries the current link first. */
  predicate LinkUsable(n: ChatNode, w: World) {
    n.link.Some? && w.status == Active
  }

  /**
    The packet fallback of `send_text`: refuse without a peer; otherwise
    resolve the peer again and send one packet to it.
  */
  function Fallback(n: ChatNode, text: string, w: World): (t: seq<Effect>)
    ensures t != []
    ensures SendCount(t) <= 1
    ensures SendCount(t) == 1 || ReportsFailure(t)
    ensures NoLinkSend(t) && Carries(t, text)
    ensures n.peerHash.Some? ==> PacketsTo(t, Resolve(w.resolution))
    ensures n.peerHash.None? ==> t == [Report(NoPeer)]
    ensures n.peerHash.Some? ==>
              && (RequestPath(n.peerHash.value) in t <==> PathRequested(w.resolution))
              && |t| == (if PathRequested(w.resolution) then 2 else 1)
              && (SendCount(t) == 1 <==> Resolve(w.resolution).Some? && w.packetSendOk)
    ensures n.peerHash.Some? && Resolve(w.resolution).None? ==> EndsWith(t, Report(PacketSendFailed(true)))
    ensures n.peerHash.Some? && Resolve(w.resolution).Some? && w.packetSendOk ==>
              EndsWith(t, PacketSend(OutSingle(Resolve(w.resolution).value), text))
    ensures n.peerHash.Some? && Resolve(w.resolution).Some? && !w.packetSendOk ==>
              EndsWith(t, Report(PacketSendFailed(false)))
    ensures Broadcast !in t
  {
    match n.peerHash
    case None => [Report(NoPeer)]
    case Some(h) =>
      var id := Resolve(w.resolution);
      var pre := RequestTrace(h, w.resolution);
      var post := [PacketAttempt(id, text, w.packetSendOk)];
      assert ReportsFailure(post) || SendCount(post) == 1;
      TraceAppend(pre, post, text, id);
      pre + post
  }

  /**
    The packet send at the end of `send_text`: the packet goes out exactly
    when the peer resolved and the send succeeded; otherwise the failure is
    reported, saying whether resolution was the cause.
  */
  function PacketAttempt(id: Option<Identity>, text: string, ok: bool): (e: Effect)
    ensures e.PacketSend? <==> id.Some? && ok
    ensures e.PacketSend? ==> e == PacketSend(OutSingle(id.value), text)
    ensures !e.PacketSend? ==> e == Report(PacketSendFailed(id.None?))
  {
    match id
    case None => Report(PacketSendFailed(true))
    case Some(i) => if ok then PacketSend(OutSingle(i), text) else Report(PacketSendFailed(false))
  }

  /**
    `send_text(text)`: over the link when it is active; if that send fails,
    report it and fall back to a packet, as when there is no active link.
    Never changes the node's state.
  */
  function SendText(n: ChatNode, text: string, w: World): (t: seq<Effect>)
    ensures LinkUsable(n, w) && w.linkSendOk ==> t == [LinkSend(n.link.value, text)]
    ensures LinkUsable(n, w) && !w.linkSendOk ==> t == [Report(LinkSendFailed)] + Fallback(n, text, w)
    ensures !LinkUsable(n, w) ==> t == Fallback(n, text, w)
    ensures SendCount(t) <= 1 && (SendCount(t) == 1 || ReportsFailure(t)) && Carries(t, text)
    ensures Broadcast !in t
  {
    if LinkUsable(n, w) && w.linkSendOk then
      [LinkSend(n.link.value, text)]
    else
      var tail := Fallback(n, text, w);
      if LinkUsable(n, w) then
        var head := [Report(LinkSendFailed)];
        TraceAppend(head, tail, text, Resolve(w.resolution));
        head + tail
      else
        tail
  }

  /**
    In a consistent node a failed link send always goes on to the packet
    path: it is never answered with "No peer set", and it ends with the
    packet to the resolved peer or with the packet failure.
  */
  lemma LinkFailureFallsBack(n: ChatNode, text: string, w: World)
    requires Consistent(n) && LinkUsable(n, w) && !w.linkSendOk
    ensures var t := SendText(n, text, w);
            && |t| >= 2 && t[0] == Report(LinkSendFailed) && Report(NoPeer) !in t
            && t[1..] == Fallback(n, text, w)
            && (t[|t| - 1].PacketSend? <==> Resolve(w.resolution).Some? && w.packetSendOk)
            && (t[|t| - 1].PacketSend? ==> t[|t| - 1] == PacketSend(OutSingle(Resolve(w.resolution).value), text))
            && (!t[|t| - 1].PacketSend? ==> t[|t| - 1] == Report(PacketSendFailed(Resolve(w.resolution).None?)))
  {
    var t := SendText(n, text, w);
    var tail := Fallback(n, text, w);
    assert t == [Report(LinkSendFailed)] + tail;
    var h := n.peerHash.value;
    var pre := RequestTrace(h, w.resolution);
    assert Report(NoPeer) !in pre;
  }
}

=== FILE: session.dfy ===
/**
  The console reader loop together with the mesh stack's callbacks, taken
  as one sequence of inputs handled in order. A line is classified and
  dispatched; a callback only prints. The loop ends at `:quit` or when the
  inputs run out (end of input).
*/
module Session {
  import opened Wrappers
  import opened Hex
  import opened Text
  import opened Console
  import opened Mesh
  import opened Node

  datatype Input =
    | Line(text: string, world: World)   // a console line and the mesh answers it meets
    | LinkUp(link: Link)                  // link-established callback
    | LinkDown(link: Link)                // link-closed callback
    | PacketIn(data: string)              // packet to the node's inbound destination
    | LinkPacketIn(data: string)          // packet over a link

  datatype Outcome = Outcome(node: ChatNode, trace: seq<Effect>, quit: bool)

  predicate IsConnectLine(i: Input) {
    i.Line? && Classify(i.text).Connect?
  }

  predicate IsMessageLine(i: Input) {
    i.Line? && Classify(i.text).Send?
  }

  /** One input handled by the node. */
  function Step(n: ChatNode, input: Input): (o: Outcome)
    ensures o.node.own == n.own
    ensures o.quit <==> input.Line? && Classify(input.text) == Quit
    ensures !input.Line? ==> o.node == n && |o.trace| == 1 && o.trace[0].Report?
    ensures !IsConnectLine(input) ==> o.node == n
    ensures n.peerHash.Some? ==> o.node.peerHash.Some?
    ensures Consistent(n) ==> Consistent(o.node)
    ensures SendCount(o.trace) <= (if IsMessageLine(input) then 1 else 0)
  {
    match input
    case Line(text, w) => Dispatch(n, Classify(text), w)
    case LinkUp(_) => Outcome(n, [Report(LinkEstablished)], false)
    case LinkDown(_) => Outcome(n, [Report(LinkClosed)], false)
    case PacketIn(data) => Outcome(n, [Report(Received(data))], false)
    case LinkPacketIn(data) => Outcome(n, [Report(ReceivedOnLink(data))], false)
  }

  /** What the reader loop does for each kind of line. */
  function Dispatch(n: ChatNode, cmd: Command, w: World): (o: Outcome)
    ensures o.node.own == n.own
    ensures o.quit <==> cmd == Quit
    ensures !cmd.Connect? ==> o.node == n
    ensures n.peerHash.Some? ==> o.node.peerHash.Some?
    ensures Consistent(n) ==> Consistent(o.node)
    ensures SendCount(o.trace) <= (if cmd.Send? then 1 else 0)
    ensures cmd == NoOp || cmd == Quit ==> o.trace == []
    ensures Broadcast in o.trace <==> cmd == Announce
    ensures cmd == Announce ==> o.trace == [Broadcast, Report(AnnounceSent)]
    ensures cmd == Me ==> o.trace == [Report(YourAddress(ToHex(n.own)))]
    ensures cmd.Connect? ==> o.node == Node.Connect(n, cmd.peer, w).node
                             && o.trace == Node.Connect(n, cmd.peer, w).trace
    ensures cmd.Send? ==> o.trace == SendText(n, cmd.text, w)
  {
    match cmd
    case NoOp => Outcome(n, [], false)
    case Quit => Outcome(n, [], true)
    case Me => Outcome(n, [Report(YourAddress(ToHex(n.own)))], false)
    case Announce => Outcome(n, [Broadcast, Report(AnnounceSent)], false)
    case Connect(peer) =>
      var c := Node.Connect(n, peer, w);
      Outcome(c.node, c.trace, false)
    case Send(msg) => Outcome(n, SendText(n, msg, w), false)
  }

  /**
    The reader loop for a given handler of one input: inputs are handled in
    order until one asks to quit or none are left. Nothing about the loop
    depends on what the handler does.
  */
  function Loop(handle: (ChatNode, Input) -> Outcome, n: ChatNode, inputs: seq<Input>): Outcome
    decreases |inputs|
  {
    if inputs == [] then Outcome(n, [], false)
    else
      var s := handle(n, inputs[0]);
      if s.quit then s
      else
        var rest := Loop(handle, s.node, inputs[1..]);
        Outcome(rest.node, s.trace + rest.trace, rest.quit)
  }

  predicate IsQuitLine(i: Input) {
    i.Line? && Classify(i.text) == Quit
  }

  /**
    The node's run over a sequence of inputs. It ends by quitting exactly
    when some line is `:quit`; otherwise it ends with the inputs.
  */
  function Run(n: ChatNode, inputs: seq<Input>): (o: Outcome)
    ensures o.quit <==> exists i :: 0 <= i < |inputs| && IsQuitLine(inputs[i])
  {
    LoopQuitsOnQuitLine(Step, n, inputs);
    Loop(Step, n, inputs)
  }

  lemma {:induction false} LoopQuitsOnQuitLine(handle: (ChatNode, Input) -> Outcome, n: ChatNode,
                                               inputs: seq<Input>)
    requires forall m, i :: handle(m, i).quit <==> IsQuitLine(i)
    ensures Loop(handle, n, inputs).quit <==> exists i :: 0 <= i < |inputs| && IsQuitLine(inputs[i])
    decreases |inputs|
  {
    if inputs != [] {
      var s := handle(n, inputs[0]);
      var tail := inputs[1..];
      LoopQuitsOnQuitLine(handle, s.node, tail);
      assert forall i :: 0 <= i < |tail| ==> tail[i] == inputs[i + 1];
      if !s.quit && Loop(handle, s.node, tail).quit {
        var i :| 0 <= i < |tail| && IsQuitLine(tail[i]);
        assert IsQuitLine(inputs[i + 1]);
      }
    }
  }

  /** A console line is classified and dispatched; nothing else happens to it. */
  lemma StepLine(n: ChatNode, text: string, w: World)
    ensures Step(n, Line(text, w)) == Dispatch(n, Classify(text), w)
  {
  }

  /** A run of one input is that input's step. */
  lemma RunOne(n: ChatNode, i: Input)
    ensures Run(n, [i]).node == Step(n, i).node
    ensures Run(n, [i]).trace == Step(n, i).trace
  {
    LoopOne(Step, n, i);
  }

  lemma LoopOne(handle: (ChatNode, Input) -> Outcome, n: ChatNode, i: Input)
    ensures Loop(handle, n, [i]).node == handle(n, i).node
    ensures Loop(handle, n, [i]).trace == handle(n, i).trace
  {
    var s := handle(n, i);
    assert [i][1..] == [];
    assert s.trace + [] == s.trace;
  }

  /**
    Inputs are handled in order: a run over `a + b` that does not quit
    within `a` is the run over `a` followed by the run over `b` from the
    state `a` leaves behind.
  */
  lemma RunAppend(n: ChatNode, a: seq<Input>, b: seq<Input>)
    requires !Run(n, a).quit
    ensures var ra := Run(n, a);
            var rb := Run(ra.node, b);
            Run(n, a + b) == Outcome(rb.node, ra.trace + rb.trace, rb.quit)
  {
    LoopAppend(Step, n, a, b);
  }

  lemma {:induction false} LoopAppend(handle: (ChatNode, Input) -> Outcome, n: ChatNode,
                                      a: seq<Input>, b: seq<Input>)
    requires !Loop(handle, n, a).quit
    ensures var ra := Loop(handle, n, a);
            var rb := Loop(handle, ra.node, b);
            Loop(handle, n, a + b) == Outcome(rb.node, ra.trace + rb.trace, rb.quit)
    decreases |a|
  {
    if a == [] {
      assert a + b == b;
    } else {
      var s := handle(n, a[0]);
      assert (a + b)[0] == a[0];
      assert (a + b)[1..] == a[1..] + b;
      LoopAppend(handle, s.node, a[1..], b);
      var rt := Loop(handle, s.node, a[1..]);
      var rb := Loop(handle, rt.node, b);
      assert s.trace + (rt.trace + rb.trace) == (s.trace + rt.trace) + rb.trace;
    }
  }

  /**
    Over any run the node's own hash never changes, a peer once set stays
    set, and a consistent node stays consistent.
  */
  lemma {:induction false} RunInvariants(n: ChatNode, inputs: seq<Input>)
    ensures Run(n, inputs).node.own == n.own
    ensures n.peerHash.Some? ==> Run(n, inputs).node.peerHash.Some?
    ensures Consistent(n) ==> Consistent(Run(n, inputs).node)
    decreases |inputs|
  {
    if inputs != [] {
      var s := Step(n, inputs[0]);
      if !s.quit {
        RunInvariants(s.node, inputs[1..]);
      }
    }
  }

  /** Every state a freshly started node reaches is consistent. */
  lemma RunFromStart(own: Bytes, inputs: seq<Input>)
    ensures Consistent(Run(Start(own), inputs).node)
  {
    RunInvariants(Start(own), inputs);
  }

  function MessageLines(inputs: seq<Input>): nat {
    if inputs == [] then 0 else (if IsMessageLine(inputs[0]) then 1 else 0) + MessageLines(inputs[1..])
  }

  /** Without a `:connect` line neither the peer nor the link ever changes. */
  lemma {:induction false} RunWithoutConnect(n: ChatNode, inputs: seq<Input>)
    requires forall i :: 0 <= i < |inputs| ==> !IsConnectLine(inputs[i])
    ensures Run(n, inputs).node == n
    decreases |inputs|
  {
    if inputs != [] {
      RunWithoutConnect(n, inputs[1..]);
    }
  }

  /** Nothing after `:quit` is handled. */
  lemma RunStopsAtQuit(n: ChatNode, inputs: seq<Input>, more: seq<Input>)
    requires Run(n, inputs).quit
    ensures Run(n, inputs + more) == Run(n, inputs)
  {
    LoopStopsAtQuit(Step, n, inputs, more);
  }

  lemma {:induction false} LoopStopsAtQuit(handle: (ChatNode, Input) -> Outcome, n: ChatNode,
                                           inputs: seq<Input>, more: seq<Input>)
    requires Loop(handle, n, inputs).quit
    ensures Loop(handle, n, inputs + more) == Loop(handle, n, inputs)
    decreases |inputs|
  {
    var all := inputs + more;
    var tail := inputs[1..];
    assert all[0] == inputs[0];
    assert all[1..] == tail + more;
    var s := handle(n, inputs[0]);
    if !s.quit {
      LoopStopsAtQuit(handle, s.node, tail, more);
    }
  }

  /** Every message the node sends comes from its own line, at most one per line. */
  lemma {:induction false} RunSendsAtMostOncePerLine(n: ChatNode, inputs: seq<Input>)
    ensures SendCount(Run(n, inputs).trace) <= MessageLines(inputs)
    decreases |inputs|
  {
    if inputs != [] {
      var s := Step(n, inputs[0]);
      if !s.quit {
        RunSendsAtMostOncePerLine(s.node, inputs[1..]);
        SendCountAppend(s.trace, Run(s.node, inputs[1..]).trace);
      }
    }
  }

  /** `:me` shows the node's own hash as lower-case hex. */
  lemma ShowAddress(a: ChatNode, w: World)
    ensures Step(a, Line(MeWord, w)).trace == [Report(YourAddress(ToHex(a.own)))]
  {
    StripTrimmed(MeWord);
  }

  /**
    The workflow the program is built for: one node shows its address with
    `:me`, the other types `:connect` with that text, and its peer becomes
    the first node's hash.
  */
  lemma ConnectToShownAddress(a: Bytes, b: ChatNode, w: World)
    requires |a| > 0
    ensures Step(b, Line(ConnectPrefix + ToHex(a), w)).node.peerHash == Some(a)
  {
    var hex := ToHex(a);
    HexIsTrimmed(hex);
    ClassifyConnectLine(hex);
    FromHexToHex(a);
  }

  lemma HexIsTrimmed(hex: string)
    requires hex != []
    requires forall i :: 0 <= i < |hex| ==> IsHexDigit(hex[i])
    ensures Trimmed(hex)
  {
    assert IsHexDigit(hex[0]) && IsHexDigit(hex[|hex| - 1]);
  }
}

=== FILE: text.dfy ===
/**
  The string operations the console reader relies on: Python's `str.strip()`
  with no argument and `str.split(None, 1)`. Both use the same notion of
  whitespace, the characters for which `str.isspace()` is true. The scans
  are written over indices into the string so that every result is a slice
  of the input.
*/
module Text {

  /** The characters Python's `str.isspace()` accepts (Unicode whitespace). */
  predicate IsSpace(c: char) {
    var n := c as int;
    || (0x09 <= n <= 0x0D)
    || (0x1C <= n <= 0x20)
    || n == 0x85
    || n == 0xA0
    || n == 0x1680
    || (0x2000 <= n <= 0x200A)
    || n == 0x2028
    || n == 0x2029
    || n == 0x202F
    || n == 0x205F
    || n == 0x3000
  }

  predicate AllSpace(s: string) {
    forall i :: 0 <= i < |s| ==> IsSpace(s[i])
  }

  predicate NoSpace(s: string) {
    forall i :: 0 <= i < |s| ==> !IsSpace(s[i])
  }

  /** Neither starts nor ends with whitespace: what `strip()` leaves behind. */
  predicate Trimmed(s: string) {
    s == [] || (!IsSpace(s[0]) && !IsSpace(s[|s| - 1]))
  }

  predicate HasPrefix(s: string, p: string) {
    |p| <= |s| && s[..|p|] == p
  }

  /** The end of the whitespace run that starts at `i`. */
  function SkipSpace(s: string, i: nat): (e: nat)
    requires i <= |s|
    ensures i <= e <= |s|
    ensures forall k :: i <= k < e ==> IsSpace(s[k])
    ensures e == |s| || !IsSpace(s[e])
    decreases |s| - i
  {
    if i < |s| && IsSpace(s[i]) then SkipSpace(s, i + 1) else i
  }

  /** The end of the run of non-whitespace characters that starts at `i`. */
  function SkipWord(s: string, i: nat): (e: nat)
    requires i <= |s|
    ensures i <= e <= |s|
    ensures forall k :: i <= k < e ==> !IsSpace(s[k])
    ensures e == |s| || IsSpace(s[e])
    decreases |s| - i
  {
    if i < |s| && !IsSpace(s[i]) then SkipWord(s, i + 1) else i
  }

  /** The start of the whitespace run that ends just before `j`. */
  function SkipSpaceBack(s: string, j: nat): (b: nat)
    requires j <= |s|
    ensures b <= j
    ensures forall k :: b <= k < j ==> IsSpace(s[k])
    ensures b == 0 || !IsSpace(s[b - 1])
  {
    if 0 < j && IsSpace(s[j - 1]) then SkipSpaceBack(s, j - 1) else j
  }

  /**
    `s.strip()`: the slice between the leading and the trailing whitespace
    runs, or the empty string when `s` is whitespace only.
  */
  function Strip(s: string): (r: string)
    ensures Trimmed(r)
    ensures r == [] <==> AllSpace(s)
    ensures |r| <= |s|
  {
    var i := SkipSpace(s, 0);
    if i == |s| then
      []
    else
      var j := SkipSpaceBack(s, |s|);
      assert i < j;
      s[i..j]
  }

  /**
    `s.split(None, 1)`: skip leading whitespace, take the first word, then
    skip the whitespace after it; whatever is left (trailing whitespace
    included) is the second part, present only when it is non-empty.
  */
  function SplitOnce(s: string): (parts: seq<string>)
    ensures |parts| <= 2
    ensures |parts| == 0 <==> AllSpace(s)
    ensures forall k :: 0 <= k < |parts| ==> parts[k] != [] && !IsSpace(parts[k][0])
    ensures |parts| >= 1 ==> NoSpace(parts[0])
    ensures |parts| == 2 ==> |parts[1]| < |s| && s[|s| - |parts[1]|..] == parts[1]
    ensures |parts| >= 1 ==>
              var i := SkipSpace(s, 0);
              var j := SkipWord(s, i);
              var k := SkipSpace(s, j);
              && parts[0] == s[i..j]
              && (|parts| == 2 <==> k < |s|)
              && (|parts| == 2 ==> parts[1] == s[k..])
  {
    var i := SkipSpace(s, 0);
    if i == |s| then
      []
    else
      var j := SkipWord(s, i);
      var k := SkipSpace(s, j);
      if k == |s| then [s[i..j]] else [s[i..j], s[k..]]
  }

  /** Surrounding whitespace does not change what `strip()` returns. */
  lemma StripPadded(a: string, r: string, b: string)
    requires AllSpace(a) && AllSpace(b) && Trimmed(r) && r != []
    ensures Strip(a + r + b) == r
  {
    var s := a + r + b;
    SkipSpaceOver(s, 0, |a|);
    SkipSpaceBackOver(s, |a| + |r|, |s|);
    assert s[|a|..|a| + |r|] == r;
  }

  /** A whitespace run from `i` up to a non-space at `e` is skipped in one go. */
  lemma {:induction false} SkipSpaceOver(s: string, i: nat, e: nat)
    requires i <= e < |s|
    requires forall k :: i <= k < e ==> IsSpace(s[k])
    requires !IsSpace(s[e])
    ensures SkipSpace(s, i) == e
    decreases e - i
  {
    if i < e {
      SkipSpaceOver(s, i + 1, e);
    }
  }

  /** A run of non-space characters from `i` up to a space at `e` is one word. */
  lemma {:induction false} SkipWordOver(s: string, i: nat, e: nat)
    requires i <= e < |s|
    requires forall k :: i <= k < e ==> !IsSpace(s[k])
    requires IsSpace(s[e])
    ensures SkipWord(s, i) == e
    decreases e - i
  {
    if i < e {
      SkipWordOver(s, i + 1, e);
    }
  }

  lemma {:induction false} SkipSpaceBackOver(s: string, b: nat, j: nat)
    requires 0 < b <= j <= |s|
    requires forall k :: b <= k < j ==> IsSpace(s[k])
    requires !IsSpace(s[b - 1])
    ensures SkipSpaceBack(s, j) == b
    decreases j - b
  {
    if b < j {
      SkipSpaceBackOver(s, b, j - 1);
    }
  }

  /** More whitespace around any string does not change what `strip()` returns. */
  lemma StripAbsorbsPadding(a: string, s: string, b: string)
    requires AllSpace(a) && AllSpace(b)
    ensures Strip(a + s + b) == Strip(s)
  {
    if AllSpace(s) {
      AllSpaceConcat(a, s);
      AllSpaceConcat(a + s, b);
    } else {
      var i := SkipSpace(s, 0);
      var j := SkipSpaceBack(s, |s|);
      var r := s[i..j];
      assert Strip(s) == r;
      var p, q := s[..i], s[j..];
      assert AllSpace(p) && AllSpace(q);
      AllSpaceConcat(a, p);
      AllSpaceConcat(q, b);
      Regroup(a, s, b, i, j);
      StripPadded(a + p, r, q + b);
    }
  }

  lemma AllSpaceConcat(a: string, b: string)
    requires AllSpace(a) && AllSpace(b)
    ensures AllSpace(a + b)
  {
    forall k | 0 <= k < |a + b|
      ensures IsSpace((a + b)[k])
    {
      if k >= |a| {
        assert (a + b)[k] == b[k - |a|];
      }
    }
  }

  lemma Regroup(a: string, s: string, b: string, i: nat, j: nat)
    requires i <= j <= |s|
    ensures a + s + b == (a + s[..i]) + s[i..j] + (s[j..] + b)
  {
    assert s == s[..i] + s[i..j] + s[j..];
  }

  /** `strip()` is idempotent; a trimmed string is its own strip. */
  lemma StripTrimmed(s: string)
    requires Trimmed(s)
    ensures Strip(s) == s
  {
    if s != [] {
      StripPadded([], s, []);
      assert [] + s + [] == s;
    }
  }
}

=== FILE: wrappers.dfy ===
/** The optional value used wherever the program stores or returns `None`. */
module Wrappers {

  datatype Option<+T> = None | Some(value: T)
}
